=== FILE: README.md ===
# fuzzypicker: the picker's state logic in Dafny

`fuzzypicker` is a Rust widget for interactive fuzzy selection in a terminal.
The user types a prompt. On every frame the candidates are filtered by the
prompt and ranked by fuzzy score. The user moves through the list with the
keyboard or the mouse and ends with Enter (pick) or Esc (cancel). This
project models the logic inside `FuzzyPicker` (`src/lib.rs`) as pure
functions over an immutable state record, and proves properties about them:

- `wrappers.dfy` (`Wrappers`): the `Option` type that `pick` returns.
- `ranking.dfy` (`Ranking`): the filter-and-rank step that opens each frame.
  The kept display strings are the ones that score non-zero against the
  prompt, or all of them when the prompt is empty. They are then stably
  sorted by descending score.
  The fuzzy matcher (`score`) and lower-casing (`lower`) are function-valued
  fields of `Matcher`. A missing match reads as score 0. The sort is
  specified as the unique sorted, tie-order-preserving rearrangement.
- `picker.dfy` (`Picker`): the state and one transition per arm of the event
  loop. This covers `new`, `set_items`, `reset`, `prev_item`, `next_item` and
  `reset_scroll`, plus the effect of a frame on the state (`Render`). The
  invariant `Valid` says three things:
  - the window start is even;
  - the window start is at most the window end;
  - the item count equals the display list's length.

  Every transition preserves `Valid`, and `Valid` rules out the unsigned
  underflow in scroll-up.
- `window.dfy` (`Window`): the rows a frame draws. Each row is an index, a
  terminal row, a highlight flag and a text.
- `session.dfy` (`Session`): event dispatch, one loop tick (dispatch, then a
  frame) and a session as a fold of ticks over the poll results.

Where the source panics, the model has a precondition instead:
- `New` requires `h >= 1`, because `h - 1` is computed on a `u16`;
- `PrevItem` and `NextItem` require a non-empty list, because they take a remainder by the count;
- `Enter` with at least one candidate requires the selection to lie inside
  the display list, because the lookup indexes it while comparing; with no
  candidates nothing is indexed and there is no pick;
- a click requires `row >= 1`;
- `Resize` requires `rows >= 1`;
- `ScrollUp` requires `ScrollUpSafe`.

`Session.Enabled` collects these preconditions per event.

Three behaviours of the code are worth spelling out:
- Enter reads `display_items[selected]` only while comparing it with a
  candidate. With no candidates there is no pick
  (`Session.EnterWithNoCandidatesPicksNothing`). With candidates but a
  non-empty prompt that none of them matches (the score against each
  candidate's display string is 0), a frame empties the display list and a
  following Enter panics (`Session.EnterWithNoMatchPanics`).
- The scroll reset that typing and Backspace perform moves the window start
  to 0 and keeps the window end. After a scroll down the window is then two
  rows wider than before the scroll (`Picker.ScrollResetWidensWindow`),
  and a frame with enough entries draws below the old window end
  (`Window.RowsAfterScrollReset`). The model follows the code here.
- An empty prompt keeps every candidate, but the kept strings are still
  sorted by their score against the empty needle. `Ranking.RankWithEmptyPrompt`
  proves that the original order survives when that score is the same for
  every string.

## Model

| member | source | states |
|---|---|---|
| Ranking.Filter | src/lib.rs:283-295 | the filter pass never yields more strings than it is given |
| Ranking.FilterContents | src/lib.rs:283-295 | a display string is kept iff the prompt is empty or its lower-cased score against the lower-cased prompt is non-zero; a kept string keeps its multiplicity and a dropped one vanishes |
| Ranking.FilterAppend | src/lib.rs:283-295 | filtering decides each item on its own and keeps the survivors in their original order (it distributes over concatenation) |
| Ranking.FilterEmptyPrompt | src/lib.rs:286 | with an empty prompt every display string is kept, in order |
| Ranking.SortDesc | src/lib.rs:297-302 | the sort by negated score yields a permutation of its input ordered by non-increasing score |
| Ranking.SortDescIsStable | src/lib.rs:297-302 | the sort is stable: for every score, the strings with that score keep their relative order |
| Ranking.StableSortIsUnique | src/lib.rs:297-302 | two sorted arrangements that keep the order of ties are equal, so sortedness plus stability fully specify the sort |
| Ranking.Rank | src/lib.rs:283-302 | the display list is a permutation of the kept strings, sorted by non-increasing score, and contains a string iff some item displays as it and it passes the filter |
| Ranking.RankKeepsTieOrder | src/lib.rs:283-302 | equal-score strings appear in the display list in the order the filter produced them |
| Ranking.RankIsOnlyStableSort | src/lib.rs:283-302 | any sorted list that preserves the filter's order of ties is the display list |
| Ranking.FilterNoMatch | src/lib.rs:283-295 | the filter yields nothing exactly when it keeps none of the given strings |
| Ranking.RankNoMatch | src/lib.rs:283-302 | the display list is empty exactly when no candidate's display string passes the filter |
| Ranking.RankWithEmptyPrompt | src/lib.rs:283-302 | with an empty prompt the display list is a permutation of all display strings, and is them in item order when the empty needle scores every string alike |
| Picker.New | src/lib.rs:94-107 | a fresh picker is valid and empty, selection and window start are 0, and the window ends one row short of the terminal height |
| Picker.SetItems | src/lib.rs:126-128 | only the candidates change; validity is kept |
| Picker.Reset | src/lib.rs:148-155 | candidates, display list and prompt become empty, count, selection and window start become 0, the window end is untouched, and the result is valid |
| Picker.ResetIsNew | src/lib.rs:148-155 | reset gives the freshly constructed picker for a terminal one row taller than the window |
| Picker.PrevItem | src/lib.rs:157-159 | on a non-empty list the selection ends in range, moves one up from an in-range selection with wrap-around from 0 to the last index, and nothing else changes |
| Picker.NextItem | src/lib.rs:161-163 | on a non-empty list the selection ends in range, moves one down with wrap-around from the last index to 0, and nothing else changes |
| Picker.NextPrevRoundTrip | src/lib.rs:157-163 | next then prev, and prev then next, restore an in-range selection |
| Picker.NextNThenPrevN | src/lib.rs:157-163 | n steps down followed by n steps up restore an in-range selection, for every n |
| Picker.PrevNLast | src/lib.rs:157-159 | n steps up are n - 1 steps up followed by one more |
| Picker.PrevNInRange | src/lib.rs:157-159 | from an in-range selection, any number of steps up keeps the selection in range |
| Picker.NextNFirst | src/lib.rs:161-163 | n steps down are one step down followed by n - 1 more |
| Picker.PrevNThenNextN | src/lib.rs:157-163 | n steps up followed by n steps down restore an in-range selection, for every n |
| Picker.ResetScroll | src/lib.rs:165-168 | window start and selection become 0 and nothing else changes |
| Picker.ScrollResetWidensWindow | src/lib.rs:165-168 | a character typed after a scroll down puts the window start at 0 and its end two rows past the end before the scroll |
| Picker.TypeChar | src/lib.rs:207-210 | the character is appended to the prompt, window start and selection become 0, the window end and everything else are unchanged |
| Picker.Backspace | src/lib.rs:211-214 | the prompt loses its last character (an empty prompt stays empty), window start and selection become 0, everything else is unchanged |
| Picker.BackspaceUndoesTypeChar | src/lib.rs:207-214 | Backspace after typing a character restores the state up to the scroll reset |
| Picker.ValidScrollUpSafe | src/lib.rs:247-253 | an even start not above the end can never make the scroll-up subtraction underflow |
| Picker.ScrollUp | src/lib.rs:247-254 | when start and end are positive both drop by exactly 2 and the selection moves to the new start, otherwise nothing changes; the window's width and the invariant are kept |
| Picker.ScrollDown | src/lib.rs:255-262 | when start and end are both below the count both grow by exactly 2 and the selection moves to the new start, otherwise nothing changes; the width and the invariant are kept and the start never passes the count plus one |
| Picker.ScrollDownUpRoundTrip | src/lib.rs:247-262 | scrolling down then up returns to the same window, with the selection at its start |
| Picker.Resize | src/lib.rs:266-268 | the window end becomes start + rows - 1 and nothing else changes; the invariant is kept |
| Picker.ClickAsWritten | src/lib.rs:242-246 | a click on row r >= 1 with r < count + 1 selects start + r - 1; any other click changes nothing |
| Picker.ClickAsWrittenSelectsPastEnd | src/lib.rs:243-244 | with three items and the window at index 2, a click on blank row 3 selects index 4, outside the display list |
| Picker.Click | src/lib.rs:242-246 | a click on a drawn row selects that row's index, which is inside the list and the window; any other click changes nothing |
| Picker.ClickAgreesAtTop | src/lib.rs:243-244 | with the window at the top and reaching past the list, the corrected click and the source's click agree |
| Picker.FirstMatch | src/lib.rs:231-233 | returns the first index whose item displays as the target, or none exactly when no item does |
| Picker.Enter | src/lib.rs:227-234 | with no candidates there is no pick; otherwise the pick is the first candidate that displays as the selected entry, and there is no pick exactly when no candidate displays as it |
| Picker.Render | src/lib.rs:283-313 | after a frame the display list is the ranking of the candidates against the prompt and the count is its length; nothing else changes and a frame restores validity |
| Picker.EnterAfterRenderPicks | src/lib.rs:227-234 | after a frame, Enter on an in-range selection always finds a candidate showing the selected entry |
| Window.RowsFrom | src/lib.rs:314-332 | the drawing loop emits one row per index from the start up to both the end and the count, on consecutive terminal rows, highlighting exactly the selected index |
| Window.VisibleRows | src/lib.rs:314-332 | a frame draws the indices from the window start to min(end, count), from terminal row 1 on, with their text, highlighting the selected index |
| Window.RowsFitWindow | src/lib.rs:314-317 | in a valid state no row is drawn below terminal row `end - start`, the scroll window's span |
| Window.RowsAfterScrollReset | src/lib.rs:314-332 | after a scroll down and a typed character, a frame over enough entries draws its last row two terminal rows below the old window end |
| Window.HighlightIffSelectionDrawn | src/lib.rs:317-330 | some row is highlighted iff the selection is among the drawn indices, and at most one is |
| Window.ClickHighlightsClickedRow | src/lib.rs:242-246 | a corrected click on a drawn row highlights that row and no other at the next frame |
| Window.ClickAsWrittenHighlightsNothing | src/lib.rs:243-244 | in a valid state, the source's click on any blank row below the drawn rows that its guard accepts leaves no row highlighted at the next frame |
| Session.Dispatch | src/lib.rs:203-270 | only Esc and Enter presses end the session; every other event leaves the candidates, display list and count alone and keeps the window invariant (clicks use the guard as written) |
| Session.Tick | src/lib.rs:201-273 | a tick that does not end the session leaves a freshly rendered, valid state with the same candidates; a poll timeout never ends it |
| Session.Run | src/lib.rs:196-275 | a session that has not ended keeps its candidates and validity and, after at least one tick, shows the current ranking |
| Session.ScrollUpNeverUnderflows | src/lib.rs:247-253 | in every valid state scroll-up is enabled |
| Session.EscCancels | src/lib.rs:215-220 | Escape ends the session with no pick from any state |
| Session.IgnoredEventsChangeNothing | src/lib.rs:203-270 | key releases and repeats, other keys, other mouse events and other events leave the state as it was |
| Session.EnterAfterTickPicks | src/lib.rs:227-234 | in a running session Enter on an in-range selection picks a candidate showing the selected entry |
| Session.EscAtStart | src/lib.rs:196-220 | Escape right after construction ends the session with no pick |
| Session.EnterWithNoMatchPanics | src/lib.rs:227-233 | with candidates and a non-empty prompt that scores 0 against each candidate's display string, a frame empties the display list and Enter is not enabled |
| Session.EnterWithNoCandidatesPicksNothing | src/lib.rs:196-234 | with no candidates, a frame then Enter ends the session with no pick |

## Findings

| source | as written | input that shows it | evidently intended | confidence | as-written member | corrected member |
|---|---|---|---|---|---|---|
| src/lib.rs:243 | the click guard `row < num_of_items + 1` ignores `start_index` | 3 items, window start 2, click on terminal row 3: only one row is drawn, yet index 4 is selected, and a following Enter indexes past the display list | accept a click only on a drawn row: `row < min(end_index, num_of_items) - start_index + 1` (the comment on the line counts rows on screen) | medium, not executed | Picker.ClickAsWritten | Picker.Click |

`Session.Dispatch` follows the source and uses `Picker.ClickAsWritten`.
`Picker.Click` is the corrected definition, and `Window.ClickHighlightsClickedRow`
is proved about it. The two guards agree whenever the window is at the top of
the list (`Picker.ClickAgreesAtTop`).

## Left out

- Terminal I/O is not modelled. This covers the alternate screen, mouse capture, clearing, cursor moves, styled printing and flushing. The 500 ms `poll`/`read` is replaced by a sequence of poll results, `None` meaning a timeout.
- The `SkimMatcherV2` scoring, Unicode `to_lowercase` and `Display` formatting are foreign library calls. They are the parameters `Ranking.Matcher` and `show`.
- `terminal::size()` in `new` is replaced by the height parameter `h`.
- The `Box<dyn Error>` results and their `?` paths are not modelled. No transition fails, and the I/O around them is out of scope.
- Colours, highlight styling and the cursor column at src/lib.rs:333 are presentation only.
- The commented-out filter at src/lib.rs:303-312 is not modelled.
- Integer widths are not modelled. `u16` and `usize` become `nat`, and the panicking subtractions become preconditions. Two `u16` truncations are not modelled: `num_of_items as u16` in the click guard, and the row counter of the drawing loop.

=== FILE: picker.dfy ===
/** The state of a `FuzzyPicker` and the pure transitions behind each arm of
    its event loop: prompt editing, keyboard navigation with wrap-around,
    mouse selection and scrolling, resizing, and the recomputation of the
    display list at every frame. Where the source would panic (modulo by
    zero, an index out of range, an unsigned underflow) the transition has a
    precondition instead. */
module Picker {
  import opened Wrappers
  import Ranking

  /** The fields of the picker that carry logic. `displayItems` is the
      filtered and ranked list of the last frame and `numOfItems` its
      length; `selected`, `startIndex` and `endIndex` index into it. The
      output handle is left out and the matcher is a parameter of `Render`. */
  datatype State<T> = State(
    items: seq<T>,
    displayItems: seq<string>,
    numOfItems: nat,
    prompt: string,
    selected: nat,
    startIndex: nat,
    endIndex: nat)

  /** The scroll window starts on an even index and is not inverted; this is
      what keeps the scroll-up step of two from running below zero. */
  predicate WindowInvariant<T>(s: State<T>) {
    s.startIndex % 2 == 0 && s.startIndex <= s.endIndex
  }

  /** The invariant every transition keeps: the window invariant, and the
      item count agreeing with the display list. */
  predicate Valid<T>(s: State<T>) {
    WindowInvariant(s) && s.numOfItems == |s.displayItems|
  }

  /** A fresh picker for a terminal `h` rows high: nothing to show yet, and a
      window one row shorter than the terminal, the top row being the
      prompt's. `h - 1` on an unsigned 16-bit value panics for `h == 0`. */
  function New<T>(h: nat): (s: State<T>)
    requires h >= 1
    ensures Valid(s)
    ensures s.items == [] && s.displayItems == [] && s.prompt == []
    ensures s.numOfItems == 0 && s.selected == 0 && s.startIndex == 0
    ensures s.endIndex + 1 == h
  {
    State([], [], 0, [], 0, 0, h - 1)
  }

  /** Replaces the candidates and nothing else; the display list catches up
      at the next frame. */
  function SetItems<T>(s: State<T>, items: seq<T>): (r: State<T>)
    ensures r.items == items
    ensures r.(items := s.items) == s
    ensures Valid(s) ==> Valid(r)
  {
    s.(items := items)
  }

  /** Clears candidates, display list and prompt and returns selection and
      window start to the top. The window's end is left as it was. */
  function Reset<T>(s: State<T>): (r: State<T>)
    ensures Valid(r)
    ensures r.items == [] && r.displayItems == [] && r.prompt == []
    ensures r.numOfItems == 0 && r.selected == 0 && r.startIndex == 0
    ensures r.endIndex == s.endIndex
  {
    s.(items := [], displayItems := [], numOfItems := 0, prompt := [], selected := 0, startIndex := 0)
  }

  /** Reset yields the freshly constructed picker for a terminal one row
      taller than the current window. */
  lemma ResetIsNew<T>(s: State<T>)
    ensures Reset(s) == New(s.endIndex + 1)
  {
  }

  /** Moves the selection one up, wrapping from the top to the bottom.
      The source takes the remainder by the item count, so the list must be
      non-empty. */
  function PrevItem<T>(s: State<T>): (r: State<T>)
    requires s.numOfItems > 0
    ensures r.selected < r.numOfItems
    ensures s.selected < s.numOfItems ==>
              r.selected == if s.selected == 0 then s.numOfItems - 1 else s.selected - 1
    ensures r.(selected := s.selected) == s
  {
    s.(selected := (s.selected + s.numOfItems - 1) % s.numOfItems)
  }

  /** Moves the selection one down, wrapping from the bottom to the top. */
  function NextItem<T>(s: State<T>): (r: State<T>)
    requires s.numOfItems > 0
    ensures r.selected < r.numOfItems
    ensures s.selected < s.numOfItems ==>
              r.selected == if s.selected == s.numOfItems - 1 then 0 else s.selected + 1
    ensures r.(selected := s.selected) == s
  {
    s.(selected := (s.selected + 1) % s.numOfItems)
  }

  /** Down then up, or up then down, restores a selection that was in range. */
  lemma NextPrevRoundTrip<T>(s: State<T>)
    requires 0 <= s.selected < s.numOfItems
    ensures PrevItem(NextItem(s)) == s
    ensures NextItem(PrevItem(s)) == s
  {
  }

  /** `n` steps down. */
  function NextN<T>(s: State<T>, n: nat): (r: State<T>)
    requires s.numOfItems > 0
    ensures r.numOfItems == s.numOfItems
    ensures n > 0 ==> r.selected < r.numOfItems
  {
    if n == 0 then s else NextItem(NextN(s, n - 1))
  }

  /** `n` steps up. */
  function PrevN<T>(s: State<T>, n: nat): (r: State<T>)
    requires s.numOfItems > 0
    ensures r.numOfItems == s.numOfItems
    decreases n
  {
    if n == 0 then s else PrevN(PrevItem(s), n - 1)
  }

  /** Navigation is a rotation: any number of steps down followed by as many
      steps up returns the selection to where it started. */
  lemma {:induction false} NextNThenPrevN<T>(s: State<T>, n: nat)
    requires 0 <= s.selected < s.numOfItems
    ensures PrevN(NextN(s, n), n) == s
  {
    if n > 0 {
      var t := NextN(s, n - 1);
      assert t.selected < t.numOfItems by {
        if n - 1 == 0 { assert t == s; }
      }
      NextPrevRoundTrip(t);
      NextNThenPrevN(s, n - 1);
    }
  }

  /** `n` steps up, taken one at a time from the last: the same as `PrevN`
      peeling its final step. */
  lemma {:induction false} PrevNLast<T>(s: State<T>, n: nat)
    requires s.numOfItems > 0 && n > 0
    ensures PrevN(s, n) == PrevItem(PrevN(s, n - 1))
    decreases n
  {
    if n > 1 {
      PrevNLast(PrevItem(s), n - 1);
    }
  }

  /** After at least one step up the selection is in range; with an
      in-range start it stays in range for every count. */
  lemma {:induction false} PrevNInRange<T>(s: State<T>, n: nat)
    requires s.numOfItems > 0
    requires s.selected < s.numOfItems
    ensures PrevN(s, n).selected < PrevN(s, n).numOfItems
    decreases n
  {
    if n > 0 {
      PrevNInRange(PrevItem(s), n - 1);
    }
  }

  /** `n` steps down, taking the first step before the rest. */
  lemma {:induction false} NextNFirst<T>(s: State<T>, n: nat)
    requires s.numOfItems > 0 && n > 0
    ensures NextN(s, n) == NextN(NextItem(s), n - 1)
    decreases n
  {
    if n > 1 {
      NextNFirst(s, n - 1);
    }
  }

  /** The other direction of the rotation: any number of steps up followed
      by as many steps down returns the selection to where it started. */
  lemma {:induction false} PrevNThenNextN<T>(s: State<T>, n: nat)
    requires 0 <= s.selected < s.numOfItems
    ensures NextN(PrevN(s, n), n) == s
    decreases n
  {
    if n > 0 {
      var t := PrevN(s, n - 1);
      PrevNLast(s, n);
      PrevNInRange(s, n - 1);
      NextNFirst(PrevItem(t), n);
      NextPrevRoundTrip(t);
      PrevNThenNextN(s, n - 1);
    }
  }

  /** Scrolls back to the top and selects the first row. */
  function ResetScroll<T>(s: State<T>): (r: State<T>)
    ensures r.startIndex == 0 && r.selected == 0
    ensures r.(startIndex := s.startIndex, selected := s.selected) == s
    ensures Valid(s) ==> Valid(r)
  {
    s.(startIndex := 0, selected := 0)
  }

  /** A scroll reset moves the window start to 0 but keeps its end, so a
      character typed after a scroll down leaves a window two rows wider
      than the one before the scroll. */
  lemma ScrollResetWidensWindow<T>(s: State<T>, ch: char)
    requires s.startIndex < s.numOfItems && s.endIndex < s.numOfItems
    ensures TypeChar(ScrollDown(s), ch).startIndex == 0
    ensures TypeChar(ScrollDown(s), ch).endIndex == s.endIndex + 2
  {
  }

  /** A typed character extends the prompt and sends the view back to the
      top of the list. */
  function TypeChar<T>(s: State<T>, ch: char): (r: State<T>)
    ensures r.prompt == s.prompt + [ch]
    ensures r.startIndex == 0 && r.selected == 0 && r.endIndex == s.endIndex
    ensures r.(prompt := s.prompt, startIndex := s.startIndex, selected := s.selected) == s
    ensures Valid(s) ==> Valid(r)
  {
    ResetScroll(s.(prompt := s.prompt + [ch]))
  }

  /** Backspace drops the prompt's last character, if there is one, and
      sends the view back to the top of the list. */
  function Backspace<T>(s: State<T>): (r: State<T>)
    ensures s.prompt != [] ==> r.prompt + [s.prompt[|s.prompt| - 1]] == s.prompt
    ensures s.prompt == [] ==> r.prompt == []
    ensures r.startIndex == 0 && r.selected == 0 && r.endIndex == s.endIndex
    ensures r.(prompt := s.prompt, startIndex := s.startIndex, selected := s.selected) == s
    ensures Valid(s) ==> Valid(r)
  {
    var p := if s.prompt == [] then [] else s.prompt[..|s.prompt| - 1];
    ResetScroll(s.(prompt := p))
  }

  /** Backspace undoes a typed character, up to the scroll reset both do. */
  lemma BackspaceUndoesTypeChar<T>(s: State<T>, ch: char)
    ensures Backspace(TypeChar(s, ch)) == ResetScroll(s)
  {
    assert (s.prompt + [ch])[..|s.prompt|] == s.prompt;
  }

  /** The scroll-up arm subtracts two from both window bounds of unsigned
      type once both are positive; it does not panic exactly when such a
      bound is then at least two. */
  predicate ScrollUpSafe<T>(s: State<T>) {
    s.startIndex > 0 && s.endIndex > 0 ==> s.startIndex >= 2 && s.endIndex >= 2
  }

  /** The invariant rules out the underflow: an even positive start is at
      least two, and the end is not below the start. */
  lemma ValidScrollUpSafe<T>(s: State<T>)
    requires WindowInvariant(s)
    ensures ScrollUpSafe(s)
  {
  }

  /** Scrolling up moves the window two rows towards the top and selects its
      first row; at the top it does nothing. */
  function ScrollUp<T>(s: State<T>): (r: State<T>)
    requires ScrollUpSafe(s)
    ensures s.startIndex > 0 && s.endIndex > 0 ==>
              r.startIndex + 2 == s.startIndex && r.endIndex + 2 == s.endIndex
              && r.selected == r.startIndex
              && r.(startIndex := s.startIndex, endIndex := s.endIndex, selected := s.selected) == s
    ensures s.startIndex == 0 || s.endIndex == 0 ==> r == s
    ensures r.endIndex - r.startIndex == s.endIndex - s.startIndex
    ensures WindowInvariant(s) ==> WindowInvariant(r)
    ensures Valid(s) ==> Valid(r)
  {
    if s.startIndex > 0 && s.endIndex > 0 then
      s.(startIndex := s.startIndex - 2, endIndex := s.endIndex - 2, selected := s.startIndex - 2)
    else s
  }

  /** Scrolling down moves the window two rows towards the bottom and
      selects its first row, as long as both bounds are still inside the
      list; otherwise it does nothing. */
  function ScrollDown<T>(s: State<T>): (r: State<T>)
    ensures s.startIndex < s.numOfItems && s.endIndex < s.numOfItems ==>
              r.startIndex == s.startIndex + 2 && r.endIndex == s.endIndex + 2
              && r.selected == r.startIndex
              && r.(startIndex := s.startIndex, endIndex := s.endIndex, selected := s.selected) == s
    ensures !(s.startIndex < s.numOfItems && s.endIndex < s.numOfItems) ==> r == s
    ensures r.endIndex - r.startIndex == s.endIndex - s.startIndex
    ensures r.startIndex > s.startIndex ==> r.startIndex <= s.numOfItems + 1
    ensures Valid(s) ==> Valid(r)
  {
    if s.startIndex < s.numOfItems && s.endIndex < s.numOfItems then
      s.(startIndex := s.startIndex + 2, endIndex := s.endIndex + 2, selected := s.startIndex + 2)
    else s
  }

  /** Scrolling down then up returns to the same window. */
  lemma ScrollDownUpRoundTrip<T>(s: State<T>)
    requires WindowInvariant(s)
    requires s.startIndex < s.numOfItems && s.endIndex < s.numOfItems
    ensures ScrollUpSafe(ScrollDown(s))
    ensures ScrollUp(ScrollDown(s)) == s.(selected := s.startIndex)
  {
  }

  /** A resize to `rows` terminal rows fits the window below the prompt row,
      keeping its start. `rows - 1` on an unsigned value panics for 0. */
  function Resize<T>(s: State<T>, rows: nat): (r: State<T>)
    requires rows >= 1
    ensures r.endIndex - r.startIndex == rows - 1
    ensures r.(endIndex := s.endIndex) == s
    ensures WindowInvariant(s) ==> WindowInvariant(r)
    ensures Valid(s) ==> Valid(r)
  {
    s.(endIndex := s.startIndex + (rows - 1))
  }

  /** The left-click arm as the source writes it: a click on screen row
      `row` (row 0 is the prompt) selects list index `startIndex + row - 1`
      when `row` is below the item count plus one, else nothing changes.
      `row - 1` on an unsigned value panics for row 0, which always passes
      the guard. */
  function ClickAsWritten<T>(s: State<T>, row: nat): (r: State<T>)
    requires row >= 1
    ensures row < s.numOfItems + 1 ==> r.selected == s.startIndex + row - 1
    ensures !(row < s.numOfItems + 1) ==> r == s
    ensures r.(selected := s.selected) == s
  {
    if row < s.numOfItems + 1 then s.(selected := (row - 1) + s.startIndex) else s
  }

  /** How many list rows a frame draws: the indices from `startIndex` up to
      both `endIndex` and the item count. */
  function VisibleCount<T>(s: State<T>): nat {
    var stop := if s.endIndex < s.numOfItems then s.endIndex else s.numOfItems;
    if s.startIndex < stop then stop - s.startIndex else 0
  }

  /** The as-written guard compares the clicked row with the whole item
      count, not with the rows drawn from `startIndex` on: with three items,
      the window starting at index 2 draws one row, yet a click on the blank
      third row selects index 4, past the end of the list, after which Enter
      would index out of range. */
  lemma ClickAsWrittenSelectsPastEnd()
    ensures var s := State(["a", "b", "c"], ["a", "b", "c"], 3, [], 2, 2, 10);
            && Valid(s)
            && VisibleCount(s) == 1
            && ClickAsWritten(s, 3).selected == 4
            && ClickAsWritten(s, 3).selected >= |s.displayItems|
  {
  }

  /** The left-click arm with the guard the comment in the source intends:
      only a click on a row that was drawn changes the selection, and the
      selection then lands on that row's item. */
  function Click<T>(s: State<T>, row: nat): (r: State<T>)
    requires row >= 1
    ensures row <= VisibleCount(s) ==> r.selected == s.startIndex + row - 1
    ensures row <= VisibleCount(s) ==> r.selected < s.numOfItems && r.selected < s.endIndex
    ensures row > VisibleCount(s) ==> r == s
    ensures r.(selected := s.selected) == s
  {
    if row < VisibleCount(s) + 1 then s.(selected := (row - 1) + s.startIndex) else s
  }

  /** The two guards agree whenever the window starts at the top of the
      list and reaches past its end; they differ only on rows below the
      drawn ones. */
  lemma ClickAgreesAtTop<T>(s: State<T>, row: nat)
    requires row >= 1
    requires s.startIndex == 0 && s.endIndex >= s.numOfItems
    ensures Click(s, row) == ClickAsWritten(s, row)
  {
  }

  /** The first index whose item displays as `target`, if any. */
  function FirstMatch<T>(show: T -> string, items: seq<T>, target: string, from: nat): (r: Option<nat>)
    requires from <= |items|
    ensures r.Some? ==> from <= r.value < |items| && show(items[r.value]) == target
                        && forall j :: from <= j < r.value ==> show(items[j]) != target
    ensures r.None? <==> forall j :: from <= j < |items| ==> show(items[j]) != target
    decreases |items| - from
  {
    if from == |items| then None
    else if show(items[from]) == target then Some(from)
    else FirstMatch(show, items, target, from + 1)
  }

  /** The Enter arm: the first candidate whose display string equals the
      selected entry of the display list. The lookup runs over the
      candidates and reads the selected entry only when there is a candidate
      to compare, so with no candidates it yields no pick; otherwise the
      selection must lie inside the display list, or the indexing panics. */
  function Enter<T>(s: State<T>, show: T -> string): (r: Option<T>)
    requires s.items == [] || s.selected < |s.displayItems|
    ensures s.items == [] ==> r == None
    ensures r.Some? ==>
              && s.items != []
              && exists i :: 0 <= i < |s.items| && r.value == s.items[i]
                   && show(s.items[i]) == s.displayItems[s.selected]
                   && forall j :: 0 <= j < i ==> show(s.items[j]) != s.displayItems[s.selected]
    ensures s.items != [] ==>
              (r.None? <==> forall j :: 0 <= j < |s.items| ==> show(s.items[j]) != s.displayItems[s.selected])
  {
    if s.items == [] then None
    else
      match FirstMatch(show, s.items, s.displayItems[s.selected], 0)
      case Some(i) => Some(s.items[i])
      case None => None
  }

  /** The state-changing part of a frame: recompute the display list from
      the candidates and the prompt, and its length. */
  function Render<T>(s: State<T>, m: Ranking.Matcher, show: T -> string): (r: State<T>)
    ensures Rendered(r, m, show)
    ensures r.(displayItems := s.displayItems, numOfItems := s.numOfItems) == s
    ensures WindowInvariant(s) ==> Valid(r)
  {
    var ds := Ranking.Rank(m, show, s.prompt, s.items);
    s.(displayItems := ds, numOfItems := |ds|)
  }

  /** The display list is the ranking of the current candidates against
      the current prompt, and the count is its length. */
  predicate Rendered<T>(s: State<T>, m: Ranking.Matcher, show: T -> string) {
    s.displayItems == Ranking.Rank(m, show, s.prompt, s.items) && s.numOfItems == |s.displayItems|
  }

  /** After a frame, every entry of the display list comes from a candidate,
      so Enter on any entry in range picks a candidate showing that entry. */
  lemma EnterAfterRenderPicks<T>(s: State<T>, m: Ranking.Matcher, show: T -> string)
    requires Rendered(s, m, show)
    requires s.selected < s.numOfItems
    ensures Enter(s, show).Some?
    ensures show(Enter(s, show).value) == s.displayItems[s.selected]
  {
    var d := s.displayItems[s.selected];
    assert d in s.displayItems;
    assert d in Ranking.Displays(show, s.items);
    var i :| 0 <= i < |s.items| && Ranking.Displays(show, s.items)[i] == d;
    assert show(s.items[i]) == d;
  }
}

=== FILE: ranking.dfy ===
/** The filter-and-rank step that opens every frame of the picker: keep the
    display strings that match the prompt, then order them by descending
    fuzzy score with a stable sort. The fuzzy matcher and Unicode
    lower-casing are foreign services and enter as function values. */
module Ranking {

  /** The external services the ranking consults. `score(haystack, needle)`
      is the fuzzy matcher's score, an absent match read as 0; `lower` is
      lower-casing. */
  datatype Matcher = Matcher(score: (string, string) -> int, lower: string -> string)

  /** Score of display string `d` against `prompt`, both lower-cased first. */
  function Score(m: Matcher, prompt: string, d: string): int {
    m.score(m.lower(d), m.lower(prompt))
  }

  /** The sort key as a function value. */
  function KeyOf(m: Matcher, prompt: string): string -> int {
    d => Score(m, prompt, d)
  }

  /** A display string survives the filter when the prompt is empty or the
      string scores non-zero against it. */
  predicate Keep(m: Matcher, prompt: string, d: string) {
    prompt == [] || Score(m, prompt, d) != 0
  }

  /** The display strings of `items`, in item order. */
  function Displays<T>(show: T -> string, items: seq<T>): seq<string> {
    seq(|items|, i requires 0 <= i < |items| => show(items[i]))
  }

  /** The filter pass: the strings of `ds` that `Keep` accepts, in order. */
  function Filter(m: Matcher, prompt: string, ds: seq<string>): (r: seq<string>)
    ensures |r| <= |ds|
  {
    if ds == [] then []
    else (if Keep(m, prompt, ds[0]) then [ds[0]] else []) + Filter(m, prompt, ds[1..])
  }

  /** The filter keeps exactly the strings `Keep` accepts, each as often as
      it occurs in the input, and drops every other one. */
  lemma {:induction false} FilterContents(m: Matcher, prompt: string, ds: seq<string>)
    ensures forall d :: multiset(Filter(m, prompt, ds))[d] == if Keep(m, prompt, d) then multiset(ds)[d] else 0
    ensures forall d :: d in Filter(m, prompt, ds) <==> d in ds && Keep(m, prompt, d)
  {
    if ds != [] {
      FilterContents(m, prompt, ds[1..]);
      assert ds == [ds[0]] + ds[1..];
    }
    var r := Filter(m, prompt, ds);
    forall d ensures d in r <==> d in ds && Keep(m, prompt, d) {
      assert d in r <==> multiset(r)[d] > 0;
      assert d in ds <==> multiset(ds)[d] > 0;
    }
  }

  /** The filter distributes over concatenation: it decides each string on
      its own and keeps the survivors in their original order. */
  lemma {:induction false} FilterAppend(m: Matcher, prompt: string, a: seq<string>, b: seq<string>)
    ensures Filter(m, prompt, a + b) == Filter(m, prompt, a) + Filter(m, prompt, b)
  {
    if a == [] {
      assert a + b == b;
    } else {
      var head := if Keep(m, prompt, a[0]) then [a[0]] else [];
      assert (a + b)[0] == a[0];
      assert (a + b)[1..] == a[1..] + b;
      assert Filter(m, prompt, a + b) == head + Filter(m, prompt, a[1..] + b);
      FilterAppend(m, prompt, a[1..], b);
      assert Filter(m, prompt, a) == head + Filter(m, prompt, a[1..]);
    }
  }

  /** With an empty prompt the filter keeps everything. */
  lemma {:induction false} FilterEmptyPrompt(m: Matcher, ds: seq<string>)
    ensures Filter(m, [], ds) == ds
  {
    if ds != [] {
      FilterEmptyPrompt(m, ds[1..]);
      assert ds == [ds[0]] + ds[1..];
    }
  }

  /** `s` is ordered by non-increasing `key`. */
  ghost predicate SortedDesc<E>(key: E -> int, s: seq<E>) {
    forall i, j :: 0 <= i < j < |s| ==> key(s[i]) >= key(s[j])
  }

  /** The elements of `s` whose key is `k`, in their order in `s`. Two
      arrangements with equal `WithKey` for every `k` order ties alike. */
  function WithKey<E>(key: E -> int, s: seq<E>, k: int): seq<E> {
    if s == [] then []
    else (if key(s[0]) == k then [s[0]] else []) + WithKey(key, s[1..], k)
  }

  /** `WithKey` selects from `s`, and only elements carrying key `k`. */
  lemma {:induction false} WithKeyMembers<E>(key: E -> int, s: seq<E>, k: int)
    ensures forall e :: e in WithKey(key, s, k) ==> e in s && key(e) == k
  {
    if s != [] {
      WithKeyMembers(key, s[1..], k);
    }
  }

  /** Inserts `x` before the first element whose key is not greater than
      its own; into a sorted list this is the stable insertion step. */
  function Insert<E>(key: E -> int, x: E, r: seq<E>): (out: seq<E>)
    ensures multiset(out) == multiset(r) + multiset{x}
    ensures |out| == |r| + 1
  {
    if r == [] || key(r[0]) <= key(x) then [x] + r
    else
      assert r == [r[0]] + r[1..];
      [r[0]] + Insert(key, x, r[1..])
  }

  /** Inserting into a sorted list keeps it sorted. */
  lemma {:induction false} InsertSorted<E>(key: E -> int, x: E, r: seq<E>)
    requires SortedDesc(key, r)
    ensures SortedDesc(key, Insert(key, x, r))
  {
    if r == [] || key(r[0]) <= key(x) {
      ConsSorted(key, x, r);
    } else {
      SortedTail(key, r);
      InsertSorted(key, x, r[1..]);
      HeadBoundsInsert(key, x, r);
      ConsSorted(key, r[0], Insert(key, x, r[1..]));
    }
  }

  /** A sorted list stays sorted under a new head whose key bounds all of it. */
  lemma ConsSorted<E>(key: E -> int, h: E, rest: seq<E>)
    requires SortedDesc(key, rest)
    requires forall j :: 0 <= j < |rest| ==> key(h) >= key(rest[j])
    ensures SortedDesc(key, [h] + rest)
  {
    var out := [h] + rest;
    forall i, j | 0 <= i < j < |out| ensures key(out[i]) >= key(out[j]) {
      assert out[j] == rest[j - 1];
      if i > 0 {
        assert out[i] == rest[i - 1];
      }
    }
  }

  /** When `x` goes behind the head of a sorted list, the head's key bounds
      every element of what the insertion builds behind it. */
  lemma HeadBoundsInsert<E>(key: E -> int, x: E, r: seq<E>)
    requires SortedDesc(key, r)
    requires r != [] && key(r[0]) > key(x)
    ensures forall j :: 0 <= j < |Insert(key, x, r[1..])| ==> key(r[0]) >= key(Insert(key, x, r[1..])[j])
  {
    var rest := Insert(key, x, r[1..]);
    forall j | 0 <= j < |rest| ensures key(r[0]) >= key(rest[j]) {
      assert rest[j] in multiset(rest);
      if rest[j] != x {
        assert rest[j] in multiset(r[1..]);
        var t :| 0 <= t < |r[1..]| && r[1..][t] == rest[j];
        assert r[1..][t] == r[t + 1];
      }
    }
  }

  /** Stable sort by non-increasing key: the model of `sort_by_key` on the
      negated score (ascending on `-key` is descending on `key`). */
  function SortDesc<E>(key: E -> int, s: seq<E>): (r: seq<E>)
    ensures multiset(r) == multiset(s)
    ensures SortedDesc(key, r)
  {
    if s == [] then []
    else
      assert s == [s[0]] + s[1..];
      var rest := SortDesc(key, s[1..]);
      InsertSorted(key, s[0], rest);
      Insert(key, s[0], rest)
  }

  lemma {:induction false} WithKeyInsert<E>(key: E -> int, x: E, r: seq<E>, k: int)
    ensures WithKey(key, Insert(key, x, r), k) == (if key(x) == k then [x] else []) + WithKey(key, r, k)
  {
    if r == [] || key(r[0]) <= key(x) {
      WithKeyInsertFront(key, x, r, k);
    } else {
      var rest := Insert(key, x, r[1..]);
      assert Insert(key, x, r) == [r[0]] + rest;
      WithKeyInsert(key, x, r[1..], k);
      WithKeyInsertBehind(key, x, r, rest, k);
    }
  }

  lemma WithKeyInsertFront<E>(key: E -> int, x: E, r: seq<E>, k: int)
    requires r == [] || key(r[0]) <= key(x)
    ensures WithKey(key, Insert(key, x, r), k) == (if key(x) == k then [x] else []) + WithKey(key, r, k)
  {
    assert Insert(key, x, r) == [x] + r;
    WithKeyCons(key, [x] + r, k);
    assert ([x] + r)[1..] == r;
  }

  lemma WithKeyInsertBehind<E>(key: E -> int, x: E, r: seq<E>, rest: seq<E>, k: int)
    requires r != [] && key(r[0]) > key(x)
    requires WithKey(key, rest, k) == (if key(x) == k then [x] else []) + WithKey(key, r[1..], k)
    ensures WithKey(key, [r[0]] + rest, k) == (if key(x) == k then [x] else []) + WithKey(key, r, k)
  {
    var head: seq<E> := if key(r[0]) == k then [r[0]] else [];
    var px: seq<E> := if key(x) == k then [x] else [];
    WithKeyCons(key, [r[0]] + rest, k);
    assert ([r[0]] + rest)[1..] == rest;
    WithKeyCons(key, r, k);
    assert head == [] || px == [];
    assert head + (px + WithKey(key, r[1..], k)) == px + (head + WithKey(key, r[1..], k));
  }

  /** The sort is stable: for every key, the elements carrying it come out
      in the order they went in. */
  lemma {:induction false} SortDescIsStable<E>(key: E -> int, s: seq<E>, k: int)
    ensures WithKey(key, SortDesc(key, s), k) == WithKey(key, s, k)
  {
    if s != [] {
      SortDescIsStable(key, s[1..], k);
      WithKeyInsert(key, s[0], SortDesc(key, s[1..]), k);
    }
  }

  /** A sorted arrangement that keeps the order of ties is unique: two of
      them agree element for element. So `SortedDesc` plus stability is a
      complete specification of the sort. */
  lemma {:induction false} StableSortIsUnique<E>(key: E -> int, a: seq<E>, b: seq<E>)
    requires SortedDesc(key, a) && SortedDesc(key, b)
    requires forall k :: WithKey(key, a, k) == WithKey(key, b, k)
    ensures a == b
    decreases |a|
  {
    if a == [] || b == [] {
      if a != [] || b != [] {
        var k := if a != [] then key(a[0]) else key(b[0]);
        WithKeyNonEmpty(key, a, b, k);
      }
    } else {
      var ka, kb := key(a[0]), key(b[0]);
      WithKeyCons(key, a, ka);
      WithKeyCons(key, b, kb);
      MaxKeyFirst(key, a, kb);
      MaxKeyFirst(key, b, ka);
      WithKeyCons(key, b, ka);
      assert a[0] == b[0];
      forall k
        ensures WithKey(key, a[1..], k) == WithKey(key, b[1..], k)
      {
        WithKeyCons(key, a, k);
        WithKeyCons(key, b, k);
        var p := if key(a[0]) == k then [a[0]] else [];
        assert WithKey(key, a[1..], k) == WithKey(key, a, k)[|p|..];
        assert WithKey(key, b[1..], k) == WithKey(key, b, k)[|p|..];
      }
      SortedTail(key, a);
      SortedTail(key, b);
      StableSortIsUnique(key, a[1..], b[1..]);
      assert a == [a[0]] + a[1..];
      assert b == [b[0]] + b[1..];
    }
  }

  /** A list is empty exactly when no key selects anything from it. */
  lemma WithKeyNonEmpty<E>(key: E -> int, a: seq<E>, b: seq<E>, k: int)
    requires a == [] || b == []
    requires (a != [] && k == key(a[0])) || (b != [] && k == key(b[0]))
    ensures WithKey(key, a, k) != WithKey(key, b, k)
  {
  }

  lemma WithKeyCons<E>(key: E -> int, s: seq<E>, k: int)
    requires s != []
    ensures WithKey(key, s, k) == (if key(s[0]) == k then [s[0]] else []) + WithKey(key, s[1..], k)
  {
  }

  /** In a sorted non-empty list no key exceeds the first one. */
  lemma MaxKeyFirst<E>(key: E -> int, s: seq<E>, k: int)
    requires SortedDesc(key, s) && s != []
    requires WithKey(key, s, k) != []
    ensures k <= key(s[0])
  {
    WithKeyMembers(key, s, k);
    var e := WithKey(key, s, k)[0];
    assert e in WithKey(key, s, k);
    var i :| 0 <= i < |s| && s[i] == e;
  }

  lemma SortedTail<E>(key: E -> int, s: seq<E>)
    requires SortedDesc(key, s) && s != []
    ensures SortedDesc(key, s[1..])
  {
    forall i, j | 0 <= i < j < |s[1..]|
      ensures key(s[1..][i]) >= key(s[1..][j])
    {
      assert s[1..][i] == s[i + 1] && s[1..][j] == s[j + 1];
    }
  }

  /** The display list a frame shows: the kept display strings, stably
      sorted by non-increasing score. It is a rearrangement of the kept
      strings, it is sorted, and a string appears in it exactly when some
      item displays as it and passes the filter. */
  function Rank<T>(m: Matcher, show: T -> string, prompt: string, items: seq<T>): (r: seq<string>)
    ensures multiset(r) == multiset(Filter(m, prompt, Displays(show, items)))
    ensures SortedDesc(KeyOf(m, prompt), r)
    ensures forall d :: d in r <==> d in Displays(show, items) && Keep(m, prompt, d)
  {
    var kept := Filter(m, prompt, Displays(show, items));
    var r := SortDesc(KeyOf(m, prompt), kept);
    FilterContents(m, prompt, Displays(show, items));
    assert forall d :: d in r <==> d in kept by {
      forall d ensures d in r <==> d in kept {
        assert d in r <==> multiset(r)[d] > 0;
        assert d in kept <==> multiset(kept)[d] > 0;
      }
    }
    r
  }

  /** `Rank` keeps the order of equal scores: for every score, the strings
      carrying it appear in `Rank` in their order among the kept strings. */
  lemma RankKeepsTieOrder<T>(m: Matcher, show: T -> string, prompt: string, items: seq<T>, k: int)
    ensures WithKey(KeyOf(m, prompt), Rank(m, show, prompt, items), k)
         == WithKey(KeyOf(m, prompt), Filter(m, prompt, Displays(show, items)), k)
  {
    SortDescIsStable(KeyOf(m, prompt), Filter(m, prompt, Displays(show, items)), k);
  }

  /** Conversely, any sorted list that keeps the order of equal scores among
      the kept strings is `Rank`: sortedness and stability pin it down. */
  lemma RankIsOnlyStableSort<T>(m: Matcher, show: T -> string, prompt: string, items: seq<T>, r: seq<string>)
    requires SortedDesc(KeyOf(m, prompt), r)
    requires forall k :: WithKey(KeyOf(m, prompt), r, k)
                      == WithKey(KeyOf(m, prompt), Filter(m, prompt, Displays(show, items)), k)
    ensures r == Rank(m, show, prompt, items)
  {
    forall k ensures WithKey(KeyOf(m, prompt), r, k) == WithKey(KeyOf(m, prompt), Rank(m, show, prompt, items), k) {
      RankKeepsTieOrder(m, show, prompt, items, k);
    }
    StableSortIsUnique(KeyOf(m, prompt), r, Rank(m, show, prompt, items));
  }

  /** With an empty prompt every display string is kept, and when the
      matcher gives every haystack the same score against the empty needle
      the items also keep their original order. */
  lemma RankWithEmptyPrompt<T>(m: Matcher, show: T -> string, items: seq<T>, c: int)
    ensures multiset(Rank(m, show, [], items)) == multiset(Displays(show, items))
    ensures (forall d :: Score(m, [], d) == c) ==> Rank(m, show, [], items) == Displays(show, items)
  {
    var ds := Displays(show, items);
    FilterEmptyPrompt(m, ds);
    if forall d :: Score(m, [], d) == c {
      var key := KeyOf(m, []);
      forall k ensures WithKey(key, Rank(m, show, [], items), k) == WithKey(key, ds, k) {
        SortDescIsStable(key, ds, k);
      }
      assert SortedDesc(key, ds);
      StableSortIsUnique(key, Rank(m, show, [], items), ds);
    }
  }

  /** The filter leaves nothing exactly when it keeps none of the given
      strings. */
  lemma FilterNoMatch(m: Matcher, prompt: string, ds: seq<string>)
    ensures Filter(m, prompt, ds) == [] <==> forall d :: d in ds ==> !Keep(m, prompt, d)
  {
    FilterContents(m, prompt, ds);
    var f := Filter(m, prompt, ds);
    if f != [] {
      assert f[0] in f;
    }
  }

  /** The display list is empty exactly when no item's display string
      passes the filter. */
  lemma RankNoMatch<T>(m: Matcher, show: T -> string, prompt: string, items: seq<T>)
    ensures Rank(m, show, prompt, items) == [] <==>
            forall i :: 0 <= i < |items| ==> !Keep(m, prompt, show(items[i]))
  {
    var ds := Displays(show, items);
    FilterNoMatch(m, prompt, ds);
    assert |multiset(Rank(m, show, prompt, items))| == |Filter(m, prompt, ds)|;
    if forall i :: 0 <= i < |items| ==> !Keep(m, prompt, show(items[i])) {
      forall d | d in ds ensures !Keep(m, prompt, d) {
        var i :| 0 <= i < |ds| && ds[i] == d;
        assert show(items[i]) == d;
      }
    } else {
      var i :| 0 <= i < |items| && Keep(m, prompt, show(items[i]));
      assert ds[i] in ds;
    }
  }
}

=== FILE: session.dfy ===
/** The event loop of `pick`, without the terminal: each tick takes what the
    poll returned (an event, or nothing within the timeout), dispatches it to
    the matching transition, and, unless the event ended the session, draws a
    frame, which recomputes the display list. A session is a fold of ticks
    over the sequence of poll results. */
module Session {
  import opened Wrappers
  import Picker
  import Ranking

  datatype KeyKind = Press | Repeat | Release

  datatype KeyCode = Char(ch: char) | Backspace | Enter | Esc | Up | Down | Left | Right | OtherKey

  datatype MouseKind = LeftDown | ScrollUp | ScrollDown | OtherMouse

  /** The terminal events the loop reads; `row` is the terminal row of a
      mouse event and `rows` the new terminal height of a resize. Focus and
      paste events are `OtherEvent`. */
  datatype Event =
    | Key(code: KeyCode, kind: KeyKind)
    | Mouse(mouse: MouseKind, row: nat)
    | Resize(cols: nat, rows: nat)
    | OtherEvent

  /** Either the loop goes on with a new state, or it has ended with what
      `pick` returns: the chosen item, or `None` for a cancel or a failed
      lookup. */
  datatype Outcome<T> = Running(state: Picker.State<T>) | Finished(picked: Option<T>)

  /** The events the source handles without panicking in state `s`:
      navigation on an empty list takes a remainder by zero, Enter with at
      least one candidate indexes the display list at the selection, a
      click on the prompt row computes `row - 1` unsigned, scroll-up
      subtracts 2 from the unsigned window bounds (`Picker.ScrollUpSafe`),
      and a resize to zero rows computes `rows - 1`. */
  predicate Enabled<T>(s: Picker.State<T>, ev: Event) {
    match ev
    case Key(code, kind) =>
      kind != Press ||
      (match code
       case Up => s.numOfItems > 0
       case Left => s.numOfItems > 0
       case Down => s.numOfItems > 0
       case Right => s.numOfItems > 0
       case Enter => s.items == [] || s.selected < |s.displayItems|
       case _ => true)
    case Mouse(mouse, row) =>
      (mouse == LeftDown ==> row >= 1) && (mouse == ScrollUp ==> Picker.ScrollUpSafe(s))
    case Resize(_, rows) => rows >= 1
    case OtherEvent => true
  }

  /** Routes one event to its transition. Only key presses act; Esc and
      Enter end the session, every other event keeps it running and leaves
      the candidates and the display list alone. */
  function Dispatch<T>(s: Picker.State<T>, ev: Event, show: T -> string): (o: Outcome<T>)
    requires Enabled(s, ev)
    ensures o.Finished? <==> ev.Key? && ev.kind == Press && (ev.code == Esc || ev.code == Enter)
    ensures o.Running? ==> o.state.items == s.items && o.state.displayItems == s.displayItems
                           && o.state.numOfItems == s.numOfItems
    ensures o.Running? && Picker.WindowInvariant(s) ==> Picker.WindowInvariant(o.state)
  {
    match ev
    case Key(code, kind) =>
      if kind != Press then Running(s)
      else
        (match code
         case Char(ch) => Running(Picker.TypeChar(s, ch))
         case Backspace => Running(Picker.Backspace(s))
         case Esc => Finished(None)
         case Up => Running(Picker.PrevItem(s))
         case Left => Running(Picker.PrevItem(s))
         case Down => Running(Picker.NextItem(s))
         case Right => Running(Picker.NextItem(s))
         case Enter => Finished(Picker.Enter(s, show))
         case OtherKey => Running(s))
    case Mouse(mouse, row) =>
      (match mouse
       case LeftDown => Running(Picker.ClickAsWritten(s, row))
       case ScrollUp => Running(Picker.ScrollUp(s))
       case ScrollDown => Running(Picker.ScrollDown(s))
       case OtherMouse => Running(s))
    case Resize(_, rows) => Running(Picker.Resize(s, rows))
    case OtherEvent => Running(s)
  }

  /** The poll result of one tick may be dispatched. */
  predicate TickEnabled<T>(s: Picker.State<T>, poll: Option<Event>) {
    poll.Some? ==> Enabled(s, poll.value)
  }

  /** One pass of the loop: dispatch the polled event, if any, then draw a
      frame unless the session ended. A running result is always freshly
      rendered. */
  function Tick<T>(s: Picker.State<T>, poll: Option<Event>, m: Ranking.Matcher, show: T -> string): (o: Outcome<T>)
    requires TickEnabled(s, poll)
    ensures o.Running? ==> Picker.Rendered(o.state, m, show) && o.state.items == s.items
    ensures o.Running? && Picker.WindowInvariant(s) ==> Picker.Valid(o.state)
    ensures poll.None? ==> o.Running?
  {
    match poll
    case None => Running(Picker.Render(s, m, show))
    case Some(ev) =>
      match Dispatch(s, ev, show)
      case Running(t) => Running(Picker.Render(t, m, show))
      case Finished(p) => Finished(p)
  }

  /** Every tick of the sequence may be taken without a panic. */
  predicate Runnable<T>(s: Picker.State<T>, polls: seq<Option<Event>>, m: Ranking.Matcher, show: T -> string)
    decreases |polls|
  {
    polls == [] ||
    (TickEnabled(s, polls[0]) &&
     match Tick(s, polls[0], m, show)
     case Running(t) => Runnable(t, polls[1..], m, show)
     case Finished(_) => true)
  }

  /** A session: ticks folded over the poll results until one ends it. */
  function Run<T>(s: Picker.State<T>, polls: seq<Option<Event>>, m: Ranking.Matcher, show: T -> string): (o: Outcome<T>)
    requires Runnable(s, polls, m, show)
    ensures o.Running? ==> o.state.items == s.items
    ensures o.Running? && Picker.Valid(s) ==> Picker.Valid(o.state)
    ensures o.Running? && polls != [] ==> Picker.Rendered(o.state, m, show)
    decreases |polls|
  {
    if polls == [] then Running(s)
    else
      match Tick(s, polls[0], m, show)
      case Running(t) => Run(t, polls[1..], m, show)
      case Finished(p) => Finished(p)
  }

  /** The window invariant makes scroll-up safe in every valid state: that
      event is then always enabled. */
  lemma ScrollUpNeverUnderflows<T>(s: Picker.State<T>, row: nat)
    requires Picker.Valid(s)
    ensures Enabled(s, Mouse(ScrollUp, row))
  {
    Picker.ValidScrollUpSafe(s);
  }

  /** Escape ends the session with no pick, whatever the state. */
  lemma EscCancels<T>(s: Picker.State<T>, show: T -> string)
    ensures Dispatch(s, Key(Esc, Press), show) == Finished(None)
  {
  }

  /** Key releases and repeats, unhandled keys, unhandled mouse events and
      other events change nothing. */
  lemma IgnoredEventsChangeNothing<T>(s: Picker.State<T>, ev: Event, show: T -> string)
    requires (ev.Key? && (ev.kind != Press || ev.code == OtherKey))
             || (ev.Mouse? && ev.mouse == OtherMouse) || ev.OtherEvent?
    ensures Dispatch(s, ev, show) == Running(s)
  {
  }

  /** In a running session Enter on a selection inside the list always picks
      a candidate whose display string is the selected entry. */
  lemma EnterAfterTickPicks<T>(s: Picker.State<T>, poll: Option<Event>, m: Ranking.Matcher, show: T -> string)
    requires TickEnabled(s, poll)
    requires Tick(s, poll, m, show).Running?
    requires Tick(s, poll, m, show).state.selected < Tick(s, poll, m, show).state.numOfItems
    ensures var t := Tick(s, poll, m, show).state;
            Dispatch(t, Key(Enter, Press), show).picked.Some?
            && show(Dispatch(t, Key(Enter, Press), show).picked.value) == t.displayItems[t.selected]
  {
    var t := Tick(s, poll, m, show).state;
    assert Picker.Rendered(t, m, show);
    Picker.EnterAfterRenderPicks(t, m, show);
    assert Dispatch(t, Key(Enter, Press), show) == Finished(Picker.Enter(t, show));
  }

  /** Escape right after construction ends the session with no pick. */
  lemma EscAtStart<T>(h: nat, m: Ranking.Matcher, show: T -> string)
    requires h >= 1
    ensures Runnable(Picker.New<T>(h), [Some(Key(Esc, Press))], m, show)
    ensures Run(Picker.New<T>(h), [Some(Key(Esc, Press))], m, show) == Finished(None)
  {
  }

  /** With candidates but a prompt that none of them matches, a frame
      empties the display list, and Enter then indexes it at the selection
      and panics: Enter is not enabled. */
  lemma EnterWithNoMatchPanics<T>(s: Picker.State<T>, m: Ranking.Matcher, show: T -> string)
    requires s.items != [] && s.prompt != []
    requires forall i :: 0 <= i < |s.items| ==> Ranking.Score(m, s.prompt, show(s.items[i])) == 0
    ensures Picker.Render(s, m, show).displayItems == []
    ensures !Enabled(Picker.Render(s, m, show), Key(Enter, Press))
  {
    Ranking.RankNoMatch(m, show, s.prompt, s.items);
  }

  /** With no candidates the lookup has nothing to compare, so Enter never
      reads the display list: right after construction, a frame and an
      Enter end the session with no pick. */
  lemma EnterWithNoCandidatesPicksNothing<T>(h: nat, m: Ranking.Matcher, show: T -> string)
    requires h >= 1
    ensures Runnable(Picker.New<T>(h), [None, Some(Key(Enter, Press))], m, show)
    ensures Run(Picker.New<T>(h), [None, Some(Key(Enter, Press))], m, show) == Finished(None)
  {
  }
}

=== FILE: window.dfy ===
/** The rows a frame draws below the prompt: one per display-list index from
    the window start, stopping at the window end or the end of the list,
    whichever comes first, with the selected index highlighted. */
module Window {
  import opened Picker

  /** One drawn row: the display-list index it shows, the terminal row it is
      drawn on (row 0 is the prompt's), whether it is highlighted as the
      selection, and its text. */
  datatype Row = Row(index: nat, screenRow: nat, highlighted: bool, text: string)

  /** The drawing loop from list index `index` and terminal row `row` on. */
  function RowsFrom(ds: seq<string>, count: nat, endIndex: nat, selected: nat, index: nat, row: nat): (rows: seq<Row>)
    requires count <= |ds|
    ensures |rows| == if index < endIndex && index < count
                      then (if endIndex < count then endIndex else count) - index
                      else 0
    ensures forall k :: 0 <= k < |rows| ==>
              rows[k] == Row(index + k, row + k, index + k == selected, ds[index + k])
    decreases count - index
  {
    if index < endIndex && index < count then
      [Row(index, row, index == selected, ds[index])] + RowsFrom(ds, count, endIndex, selected, index + 1, row + 1)
    else []
  }

  /** The rows of a frame, drawn from terminal row 1 on. */
  function VisibleRows<T>(s: State<T>): (rows: seq<Row>)
    requires s.numOfItems <= |s.displayItems|
    ensures |rows| == VisibleCount(s)
    ensures forall k :: 0 <= k < |rows| ==>
              && rows[k].index == s.startIndex + k
              && rows[k].screenRow == k + 1
              && rows[k].text == s.displayItems[s.startIndex + k]
              && (rows[k].highlighted <==> s.startIndex + k == s.selected)
  {
    RowsFrom(s.displayItems, s.numOfItems, s.endIndex, s.selected, s.startIndex, 1)
  }

  /** No row is drawn below terminal row `endIndex - startIndex`, the span
      of the scroll window. The span is the terminal height less the prompt
      row after construction or a resize, but a scroll reset can widen it
      (`Picker.ScrollResetWidensWindow`). */
  lemma RowsFitWindow<T>(s: State<T>)
    requires Valid(s)
    ensures forall k :: 0 <= k < |VisibleRows(s)| ==>
              1 <= VisibleRows(s)[k].screenRow <= s.endIndex - s.startIndex
  {
  }

  /** After a scroll down and a typed character the frame draws from index
      0 again over the widened window: with enough entries its last row
      lands two terminal rows below where the window ended before. */
  lemma RowsAfterScrollReset<T>(s: State<T>, ch: char)
    requires Valid(s)
    requires s.startIndex < s.numOfItems && s.endIndex + 2 <= s.numOfItems
    ensures |VisibleRows(TypeChar(ScrollDown(s), ch))| == s.endIndex + 2
    ensures VisibleRows(TypeChar(ScrollDown(s), ch))[s.endIndex + 1].screenRow == s.endIndex + 2
  {
  }

  /** Some row is highlighted exactly when the selection lies inside the
      drawn part of the list, and then it is the only one. */
  lemma HighlightIffSelectionDrawn<T>(s: State<T>)
    requires Valid(s)
    ensures (exists k :: 0 <= k < |VisibleRows(s)| && VisibleRows(s)[k].highlighted)
            <==> s.startIndex <= s.selected < s.startIndex + VisibleCount(s)
    ensures forall k, l :: 0 <= k < l < |VisibleRows(s)| ==>
              !(VisibleRows(s)[k].highlighted && VisibleRows(s)[l].highlighted)
  {
    var rows := VisibleRows(s);
    if s.startIndex <= s.selected < s.startIndex + VisibleCount(s) {
      assert rows[s.selected - s.startIndex].highlighted;
    }
  }

  /** A click on a drawn row highlights exactly that row at the next frame. */
  lemma ClickHighlightsClickedRow<T>(s: State<T>, row: nat)
    requires Valid(s)
    requires 1 <= row <= VisibleCount(s)
    ensures VisibleRows(Click(s, row))[row - 1].highlighted
    ensures forall k :: 0 <= k < |VisibleRows(Click(s, row))| && k != row - 1 ==>
              !VisibleRows(Click(s, row))[k].highlighted
  {
  }

  /** As written, the click guard accepts a blank row below the end of the
      list; such a click selects an index no row shows, so the next frame
      highlights nothing. */
  lemma ClickAsWrittenHighlightsNothing<T>(s: State<T>, row: nat)
    requires Valid(s)
    requires VisibleCount(s) < row < s.numOfItems + 1
    ensures forall k :: 0 <= k < |VisibleRows(ClickAsWritten(s, row))| ==>
              !VisibleRows(ClickAsWritten(s, row))[k].highlighted
  {
  }
}

=== FILE: wrappers.dfy ===
/** The optional value the picker hands back: `Some(item)` when a pick was
    resolved to an item, `None` when it was cancelled or nothing matched. */
module Wrappers {

  datatype Option<+T> = None | Some(value: T)

}
